=== FILE: README.md ===
# Travel-agency back end: accounts, profiles, trips and role checks

This project models the service layer of a small travel-agency back end with
three roles: ADMIN, EMPLOYEE and TOURIST.

- **Accounts.** An ADMIN creates employee accounts. An ADMIN or EMPLOYEE
  creates tourist accounts, and a tourist may also self-register. Each
  account has one profile: an employee profile keyed by the account's user
  id, or a tourist profile with its own id and a unique `userId`.
- **Trips.** EMPLOYEE callers create, update, cancel and delete trips. A
  trip belongs to a tourist profile and is PLANNED or CANCELED. TOURIST
  callers see only their own trips.
- **Login.** Login checks a bcrypt hash and returns a JWT that carries
  `{ sub, role }`.
- **Role guard.** A role guard compares the caller's role with the `@Roles`
  list of the route.

## Modules

- **`Store`** holds the persistent store as one `Database` object. It has
  four tables (`users`, `employees`, `tourists`, `trips`) as map fields. Its
  invariant `Valid()` combines:
  - unique emails;
  - a unique tourist `userId`;
  - every profile points at an account of the matching role;
  - every EMPLOYEE or TOURIST account has its profile;
  - every CANCELED trip carries a cancellation time;
  - every trip points at an existing tourist profile.

  The lemmas beside it show that each kind of write keeps that invariant.
- **`TripsService`, `UsersService`, `AuthService`, `EmployeesService`,
  `TouristsService`.** Writes are methods that change the `Database`. Each
  one states:
  - its full new state in terms of the old;
  - that it writes nothing on every error path;
  - that it keeps `Valid()`. The exception is `UsersService.UpdateUser`,
    whose payload is opaque, so it makes no `Valid()` claim.

  Reads are functions over the tables.
- **Deleting a tourist profile.** The referential action of a trip's link
  to its profile is set by a schema that is not part of this model, so it
  is a parameter `OnDelete`:
  - `Restrict`: the delete fails while trips point at the profile, and the
    transaction rolls back.
  - `Cascade`: those trips go with the profile.

  In both cases the trips of every other profile stay as they were.
- **`RolesGuard`** is the guard's decision. It also records where a route's
  role lists can be declared (on the handler, on the class), and what the
  guard looks up: the handler's list only.
- **`TripsController`, `UsersController`, `EmployeesController`,
  `TouristsController`** hold each route's declared role lists, with lemmas
  saying who may call what. Read routes are modelled as a role check
  followed by the service query. On the trip routes the check is the guard
  as written, since their lists sit on the handlers. On the employee and
  tourist-profile read routes the check uses the class-level list as
  declared (`Intended`), not the guard's handler-only lookup (`Lookup`),
  which finds nothing there and admits every role (see "## Findings").
- **`Common`** holds ids, enums, the error kinds with their messages,
  `Result` and rows. **`Crypto`** holds the bcrypt and JWT parameters.

Several behaviours are modelled as the code has them, including some a
reader might not expect:

- An update that supplies only one date is not checked against the stored
  other date (src/trips/trips.service.ts:93-97).
  `TripsService.SingleDateSkipsRangeCheck` exhibits this.
- The general trip update may set a CANCELED trip back to PLANNED
  (src/trips/trips.service.ts:89-105). `TripsService.UpdateCanReplan`
  exhibits this.
- Cancelling an already-cancelled trip succeeds and restamps `canceledAt`
  (src/trips/trips.service.ts:110-120).
- A duplicate email is a BadRequest in account creation
  (src/users/users.service.ts:24) but a Conflict in self-registration
  (src/auth/auth.service.ts:44).

## Model

| member | source | states |
|---|---|---|
| Store.UserByEmail | src/auth/auth.service.ts:20 | lookup by the unique email: found exactly when some account has that email, and then it is that account |
| Store.TouristByUserId | src/trips/trips.service.ts:39-41 | lookup by the unique tourist `userId`: found exactly when some profile belongs to that account, and then it is that profile |
| Store.WithoutTouristOf | src/users/users.service.ts:155-157 | deleting by `userId` keeps exactly the profiles of other accounts, unchanged |
| Store.AddEmployeeAccount | src/users/users.service.ts:29-44 | adding an EMPLOYEE account and its profile under a fresh id and an unused email keeps the store consistent |
| Store.AddTouristAccount | src/users/users.service.ts:69-87 | adding a TOURIST account and its linked profile under fresh ids and an unused email keeps the store consistent |
| Store.WithoutTripsOf | src/users/users.service.ts:155-157 | the trips left when a profile's trips cascade with it: exactly the trips of other profiles, unchanged, and none of that profile |
| Store.RemoveAccount | src/users/users.service.ts:150-160 | removing an account together with whichever profile it has, and that profile's trips, keeps the store consistent |
| Store.RemoveTouristAccount | src/tourists/tourists.service.ts:62-66 | removing a tourist account with its profile and the profile's trips keeps the store consistent without touching the employee table |
| Store.AbsentProfiles | src/users/users.service.ts:151-157 | deleting a profile the account does not have, and its (absent) trips, changes nothing |
| Store.ChangeCredentials | src/users/users.service.ts:115-134 | rewriting email and hash keeps emails unique when the new email is unchanged or unused |
| Store.NoTouristOfEmployee | src/employees/employees.service.ts:62-66 | an employee account has no tourist profile and no trips, so removing it leaves the tourist and trip tables as they were |
| Store.NoEmployeeOfTourist | src/tourists/tourists.service.ts:62-66 | a tourist account has no employee profile, so removing it leaves the employee table as it was |
| Store.ReplaceTourist | src/tourists/tourists.service.ts:49-52 | rewriting a tourist profile that stays linked to the same account keeps the store consistent |
| Store.RemovesOneProfile | src/tourists/tourists.service.ts:63 | deleting by the unique `userId` removes exactly one profile |
| Common.AllRows | src/employees/employees.service.ts:9-22 | a `findMany` without ordering lists every row of the table exactly once, so as many rows as the table has; `EmployeesService.FindAll` and the tourist `findAll` of src/tourists/tourists.service.ts:9-22 (`TouristsService.FindAll`) are this query |
| RolesGuard.CanActivate | src/common/guards/roles/roles.guard.ts:9-15 | with no role metadata every caller passes; with a list, the caller passes exactly when its role is in it |
| RolesGuard.EmptyListDeniesAll | src/common/guards/roles/roles.guard.ts:14 | an empty role list denies every caller |
| RolesGuard.Monotonic | src/common/guards/roles/roles.guard.ts:14 | enlarging the list never revokes access |
| RolesGuard.OnlyRoleMatters | src/common/guards/roles/roles.guard.ts:9-15 | two callers with the same role get the same decision; no table is read |
| RolesGuard.ClassListIgnored | src/common/guards/roles/roles.guard.ts:10 | the guard's lookup (`RolesGuard.Lookup`, the handler's metadata only) makes its decision the same whatever list the class declares |
| RolesGuard.ClassListOnlyAdmitsAll | src/common/guards/roles/roles.guard.ts:10-11 | a route whose only list sits on its class admits every caller |
| RolesGuard.HandlerListHonoured | src/common/guards/roles/roles.guard.ts:10-14 | where the handler declares its own list, the guard decides by the list the route is meant to have |
| TripsService.Create | src/trips/trips.service.ts:16-35 | start ≥ end gives BadRequest before the tourist lookup; an unknown tourist gives NotFound; either way nothing is written; otherwise exactly one PLANNED trip with the given fields is added |
| TripsService.NewestExists | src/trips/trips.service.ts:64 | every non-empty set of trips has a newest one |
| TripsService.ByNewest | src/trips/trips.service.ts:64 | the ids are listed once each, newest `createdAt` first |
| TripsService.FindAll | src/trips/trips.service.ts:50-66 | every trip (or every trip of one tourist profile) once, newest first |
| TripsService.FindAllForUser | src/trips/trips.service.ts:37-48 | a TOURIST gets exactly the trips of its own profile and any other role every trip, each once, newest first |
| TripsService.FindOneForUser | src/trips/trips.service.ts:68-83 | NotFound for a missing trip is checked before ownership; a TOURIST gets Forbidden for another tourist's trip; otherwise the stored trip |
| TripsService.ScopesAgree | src/trips/trips.service.ts:37-83 | a caller can read one trip exactly when its listing shows that trip |
| TripsService.NoProfileNoTrips | src/trips/trips.service.ts:39-42 | a TOURIST without a profile gets an empty list |
| TripsService.Update | src/trips/trips.service.ts:85-108 | NotFound, then "Use cancel endpoint", then the range check when both dates are given (the two checks are `TripsService.CheckUpdate`); nothing is written on error; on success the supplied fields are written over the stored trip; an update never makes a trip newly CANCELED |
| TripsService.PatchKeepsUnsupplied | src/trips/trips.service.ts:99-107 | the write of the update (`TripsService.Patch`): supplied dates, destination and status are written; unsupplied fields, owner, cancellation time and creation time keep their stored values |
| TripsService.PatchIdempotent | src/trips/trips.service.ts:99-107 | applying the same update twice equals applying it once |
| TripsService.SingleDateSkipsRangeCheck | src/trips/trips.service.ts:93-97 | an update with only an end date passes the checks even when it makes the trip end before it starts |
| TripsService.UpdateCanReplan | src/trips/trips.service.ts:89-107 | a CANCELED trip can be set back to PLANNED through the general update, keeping its cancellation time |
| TripsService.Cancel | src/trips/trips.service.ts:110-121 | NotFound for a missing trip; otherwise whatever the prior status, the trip becomes CANCELED stamped with the current time, and nothing else changes |
| TripsService.Remove | src/trips/trips.service.ts:123-133 | NotFound for a missing trip; otherwise only that trip is deleted and it is echoed with "Trip successfully deleted" |
| UsersService.CreateEmployee | src/users/users.service.ts:18-56 | a used email gives BadRequest and no write; otherwise one EMPLOYEE account with the hashed password plus its profile, and a reply with id, name, email and role but no hash |
| UsersService.CreateTourist | src/users/users.service.ts:58-91 | a used email gives BadRequest and no write; otherwise one TOURIST account named from `fullName` plus a linked profile, and the request echoed back |
| UsersService.UpdateUser | src/users/users.service.ts:93-104 | NotFound and no write for an unknown id; otherwise only that account row is rewritten |
| UsersService.UpdateUserCredentials | src/users/users.service.ts:106-137 | succeeds exactly when the account exists and any new email is unused; NotFound for an unknown account; a new email used by another account gives BadRequest; the same email is ignored; no effective change gives "No changes provided" and no write; otherwise only email and/or hash change |
| UsersService.DeleteUser | src/users/users.service.ts:139-163 | NotFound for an unknown id; a tourist profile with trips under `Restrict` fails the transaction with no write; otherwise the account and whichever profiles it has are removed together, the profile's trips cascade, and the trips of every other profile stay |
| AuthService.Login | src/auth/auth.service.ts:19-38 | every failure is the same bare Unauthorized; success exactly when the email's account verifies the password; the token signs `{ sub, role }` of that account |
| AuthService.FailuresIndistinguishable | src/auth/auth.service.ts:19-28 | a wrong password and an unknown email give the same answer |
| AuthService.Register | src/auth/auth.service.ts:39-69 | a used email gives Conflict and no write; otherwise one TOURIST account storing only the password hash, plus a linked profile |
| AuthService.LoginAfterRegister | src/auth/auth.service.ts:19-69 | if bcrypt accepts a password against its own hash, logging in after a registration succeeds as the new account with role TOURIST |
| EmployeesService.FindByUserId | src/employees/employees.service.ts:24-40 | the profile of that user id, or NotFound when there is none |
| EmployeesService.Update | src/employees/employees.service.ts:42-53 | NotFound and no write when missing; otherwise only `position` changes |
| EmployeesService.Remove | src/employees/employees.service.ts:55-67 | NotFound and no write when missing; otherwise the profile and its account are removed together, and every other row is unchanged |
| TouristsService.FindByUserId | src/tourists/tourists.service.ts:24-40 | the profile whose `userId` is given, or NotFound when there is none |
| TouristsService.PatchKeepsUnsupplied | src/tourists/tourists.service.ts:49-52 | the write of the update (`TouristsService.Patch`, the dto passed as `data`): supplied phone, gender, age and address are written; the rest are kept, and the profile stays linked to its account |
| TouristsService.Update | src/tourists/tourists.service.ts:42-53 | NotFound and no write when missing; otherwise only that profile changes, by the patch |
| TouristsService.Remove | src/tourists/tourists.service.ts:55-67 | NotFound and no write when missing; a profile with trips under `Restrict` fails the transaction with no write; otherwise exactly one profile and its account are removed, its trips cascade, the employee table and the trips of every other profile stay |
| TripsController.RolesOf | src/trips/trips.controller.ts:27-61 | every trip route declares a role list, and none of them contains ADMIN |
| TripsController.WritesAreEmployeeOnly | src/trips/trips.controller.ts:27-61 | create, update, cancel and delete admit exactly EMPLOYEE |
| TripsController.ReadsAreEmployeeOrTourist | src/trips/trips.controller.ts:33-43 | list and read-one admit exactly EMPLOYEE and TOURIST |
| TripsController.AdminHasNoTripHandler | src/trips/trips.controller.ts:27-61 | an ADMIN caller is denied on every trip route |
| TripsController.List | src/trips/trips.controller.ts:33-37 | ADMIN gets 403; otherwise the listing is scoped by the caller's identity |
| TripsController.Get | src/trips/trips.controller.ts:39-43 | ADMIN gets 403; otherwise the read is scoped by the caller's identity, with NotFound for a missing trip |
| UsersController.RolesOf | src/users/users.controller.ts:25-56 | every account route admits ADMIN and none admits TOURIST |
| UsersController.AdminOnly | src/users/users.controller.ts:25-56 | every account route except tourist creation admits exactly ADMIN |
| UsersController.TouristAccountsByAdminOrEmployee | src/users/users.controller.ts:31-35 | tourist creation admits exactly ADMIN and EMPLOYEE |
| UsersController.TouristHasNoAccountHandler | src/users/users.controller.ts:25-56 | a TOURIST caller is denied on every account route |
| EmployeesController.Declaration | src/employees/employees.controller.ts:17-41 | no employee handler declares a list of its own; the class list admits ADMIN and neither EMPLOYEE nor TOURIST |
| EmployeesController.SharedByAllHandlers | src/employees/employees.controller.ts:17-19 | every employee route is meant to be guarded by one and the same list |
| EmployeesController.AdminOnly | src/employees/employees.controller.ts:17-41 | as meant, every employee route admits exactly ADMIN |
| EmployeesController.EmployeeMayRemoveAsWritten | src/employees/employees.controller.ts:38-41 | as written, the guard admits an EMPLOYEE to delete an employee, which the declared list denies |
| EmployeesController.List | src/employees/employees.controller.ts:23-26 | under the class-level list as declared, non-ADMIN callers get 403; ADMIN gets every employee profile once |
| EmployeesController.Get | src/employees/employees.controller.ts:28-31 | under the class-level list as declared, non-ADMIN callers get 403; ADMIN gets the profile addressed by the account's user id, or NotFound |
| TouristsController.Declaration | src/tourists/tourists.controller.ts:17-41 | no tourist-profile handler declares a list of its own; the class list admits EMPLOYEE and neither ADMIN nor TOURIST |
| TouristsController.SharedByAllHandlers | src/tourists/tourists.controller.ts:17-19 | every tourist-profile route is meant to be guarded by one and the same list |
| TouristsController.EmployeeOnly | src/tourists/tourists.controller.ts:17-41 | as meant, every tourist-profile route admits exactly EMPLOYEE, so not ADMIN |
| TouristsController.AnyRoleAdmittedAsWritten | src/tourists/tourists.controller.ts:17-41 | as written, the guard admits every role to every tourist-profile route, although the declared list admits only EMPLOYEE |
| TouristsController.List | src/tourists/tourists.controller.ts:23-26 | under the class-level list as declared, non-EMPLOYEE callers get 403; EMPLOYEE gets every tourist profile once |
| TouristsController.Get | src/tourists/tourists.controller.ts:28-31 | under the class-level list as declared, non-EMPLOYEE callers get 403; EMPLOYEE gets the profile addressed by the account's user id (not the profile id), or NotFound |

## Left out

- HTTP, routing, the framework's dependency injection, the application bootstrap and module wiring are not modelled. `src/main.ts`, `src/app.module.ts` and `src/tourists/tourists.module.ts` are not part of this model.
- The login and register routes carry no guard. `src/auth/auth.controller.ts` only delegates and is not part of this model.
- The controllers' write routes are the guard followed by one service method call. Only the role lists and the read routes are written out; the writes are the service methods.
- Token decoding happens in `JwtAuthGuard`, which is not part of this model. The caller's `Identity` is a parameter.
- The `Roles` decorator is not part of this model. Its metadata is taken to sit on the class it decorates.
- bcrypt and JWT signing are function-valued parameters. The only assumption about bcrypt is that a password verifies against its own hash, and only `AuthService.LoginAfterRegister` uses it. The random salt is a parameter too.
- Generated ids and `createdAt` stamping are parameters. New ids are required to be fresh.
- Prisma `include`/`select` projections are not modelled. Rows carry their own fields only.
- Dates are integers. Parsing date strings, and comparisons involving invalid dates, are not modelled.
- The email pre-check runs outside the transaction and can race with another request. Only sequential execution is modelled, where a transaction is all-or-nothing.
- The validation decorators on the request DTOs are not modelled. The DTOs give only the shape of the input, with optional fields as `Option`.
- `UsersService.UpdateUser`: the payload type is not part of this model, so the patch is a parameter and no claim is made that the store stays consistent afterwards. An arbitrary payload could change email or role.
- `EmployeesController.List`, `EmployeesController.Get`, `TouristsController.List`, `TouristsController.Get`: these decide by the class-level list as declared, so their 403 for the wrong role is the intended behaviour; the guard as written admits every role on these routes (see "## Findings"), and these members do not model that.
- `TouristsService.Update`: the source writes the whole request body as `data` (src/tourists/tourists.service.ts:49-52), and no validation pipe strips unknown properties. The model takes only the four fields of the update payload (phone, gender, age, address). A body that also carries columns such as `userId` or `id` would move or rename the profile, which is not modelled. The promises that the profile stays linked to its account (`TouristsService.PatchKeepsUnsupplied`) and that `Valid()` is kept hold only for bodies limited to those four fields.
- `TripsService.FindOneForUser`: the store invariant rules out a trip whose tourist profile is missing. For such a trip outside the invariant, the source would fail dereferencing the profile, and the model gives a TOURIST caller Forbidden instead.
- The database schema is not part of this model. The referential action of a trip's link to its tourist profile is the parameter `OnDelete`, so both possibilities are modelled and neither is assumed. Links from profiles to accounts are taken as the store invariant states them.
- `TripsService.FindAll` takes the tourist filter as present or absent. The source's truthiness test on the id would also skip an empty id, but generated ids are never empty.
- Unordered listings (`findMany` without `orderBy`) use one fixed but unspecified enumeration order. The model claims each row appears exactly once, nothing about order.
- `prisma/seed.ts` and the end-to-end test are not modelled. The test's role-denial expectations are stated as the controller lemmas.

## Findings

| source | as written | input that shows it | evidently intended | confidence | as-written member | corrected member |
|---|---|---|---|---|---|---|
| src/common/guards/roles/roles.guard.ts:10 | the guard reads role metadata from the handler only, while the employee and tourist controllers declare `@Roles` on the class (src/employees/employees.controller.ts:19, src/tourists/tourists.controller.ts:19), so the guard finds no list and admits every role | an EMPLOYEE token on `DELETE /employees/:userId`; a TOURIST or ADMIN token on any `/tourists` route | the class-level list applies to every handler: [ADMIN] for employees, [EMPLOYEE] for tourist profiles, as the end-to-end test expects at test/rbac-flow.e2e-spec.ts:163-170 | medium; not executed; rests on `Roles` storing metadata on the decorated target | EmployeesController.EmployeeMayRemoveAsWritten, TouristsController.AnyRoleAdmittedAsWritten | EmployeesController.AdminOnly, TouristsController.EmployeeOnly |

=== FILE: auth_service.dfy ===
/** Login and self-service registration. */
module AuthService {
  import opened Common
  import opened Crypto
  import opened Store

  datatype RegisterDto = RegisterDto(
    email: string,
    password: string,
    name: string,
    phone: string,
    gender: Gender,
    age: int,
    address: string)

  datatype Session = Session(accessToken: string)

  /** `login`: an unknown email and a wrong password end in the same bare
      Unauthorized; a match yields a token signed over exactly `{ sub, role }`.
      It reads the user table and writes nothing. */
  function Login(users: map<Id, User>, email: string, password: string, bcrypt: Bcrypt, sign: Signer): (r: Result<Session>)
    requires EmailsUnique(users)
    ensures r.Err? ==> r == Err(Unauthorized)
    ensures !EmailTaken(users, email) ==> r == Err(Unauthorized)
    ensures r.Ok? <==> exists id :: id in users && users[id].email == email && bcrypt.compare(password, users[id].passwordHash)
    ensures forall id :: id in users && users[id].email == email && bcrypt.compare(password, users[id].passwordHash) ==>
      r == Ok(Session(sign(Identity(id, users[id].role))))
  {
    match UserByEmail(users, email)
    case None => Err(Unauthorized)
    case Some(id) =>
      var user := users[id];
      if !bcrypt.compare(password, user.passwordHash) then Err(Unauthorized)
      else Ok(Session(sign(Identity(id, user.role))))
  }

  method Register(db: Database, dto: RegisterDto, bcrypt: Bcrypt, salt: Salt, newUserId: Id, newTouristId: Id, now: int)
    returns (r: Result<Message>)
    requires db.Valid() && newUserId !in db.users && newTouristId !in db.tourists
    modifies db
    ensures db.Valid()
    ensures r.Err? <==> EmailTaken(old(db.users), dto.email)
    ensures r.Err? ==> r.error == Conflict("Email already registered") && unchanged(db)
    ensures r.Ok? ==>
      && r.value == Message("Register success")
      && db.users == old(db.users)[newUserId := User(dto.email, dto.name, bcrypt.hash(dto.password, salt), TOURIST, now)]
      && db.tourists == old(db.tourists)[newTouristId := Tourist(newUserId, dto.phone, dto.gender, dto.age, dto.address)]
      && db.employees == old(db.employees) && db.trips == old(db.trips)
  {
    if EmailTaken(db.users, dto.email) {
      return Err(Conflict("Email already registered"));
    }
    var hashPassword := bcrypt.hash(dto.password, salt);
    var user := User(dto.email, dto.name, hashPassword, TOURIST, now);
    var profile := Tourist(newUserId, dto.phone, dto.gender, dto.age, dto.address);
    AddTouristAccount(db.users, db.employees, db.tourists, db.trips, newUserId, user, newTouristId, profile);
    // the transaction: the account, then its profile
    db.users := db.users[newUserId := user];
    db.tourists := db.tourists[newTouristId := profile];
    return Ok(Message("Register success"));
  }

  /** Round trip: once `register` has added its account to a user table, a
      login with the same email and password succeeds as that new account,
      with role TOURIST, provided bcrypt accepts a password against its own
      hash. */
  lemma LoginAfterRegister(users: map<Id, User>, dto: RegisterDto, bcrypt: Bcrypt, salt: Salt,
                           newUserId: Id, now: int, sign: Signer)
    requires EmailsUnique(users) && !EmailTaken(users, dto.email) && newUserId !in users
    requires Sound(bcrypt)
    ensures var users' := users[newUserId := User(dto.email, dto.name, bcrypt.hash(dto.password, salt), TOURIST, now)];
      && EmailsUnique(users')
      && Login(users', dto.email, dto.password, bcrypt, sign) == Ok(Session(sign(Identity(newUserId, TOURIST))))
  {
    var users' := users[newUserId := User(dto.email, dto.name, bcrypt.hash(dto.password, salt), TOURIST, now)];
    forall a, b | a in users' && b in users' && users'[a].email == users'[b].email
      ensures a == b
    {
      assert a != newUserId ==> users'[a] == users[a];
      assert b != newUserId ==> users'[b] == users[b];
    }
    assert bcrypt.compare(dto.password, users'[newUserId].passwordHash);
  }

  /** A login attempt with a wrong password cannot be told apart from one
      with an unknown email. */
  lemma FailuresIndistinguishable(users: map<Id, User>, known: string, unknown: string,
                                  password: string, bcrypt: Bcrypt, sign: Signer)
    requires EmailsUnique(users)
    requires !EmailTaken(users, unknown)
    requires forall id :: id in users && users[id].email == known ==> !bcrypt.compare(password, users[id].passwordHash)
    ensures Login(users, known, password, bcrypt, sign) == Login(users, unknown, password, bcrypt, sign)
  {
  }
}

=== FILE: common.dfy ===
/** Vocabulary shared by every service: identifiers, the enums of the data
    model, the typed failures that replace the framework's exceptions, and
    rows as a query returns them. */
module Common {

  /** Row identifiers (generated by the database, so never chosen here). */
  type Id = string

  datatype Option<T> = None | Some(value: T)

  function GetOr<T>(o: Option<T>, default: T): T
  {
    match o
    case Some(v) => v
    case None => default
  }

  datatype Role = ADMIN | EMPLOYEE | TOURIST

  datatype Gender = MALE | FEMALE | OTHER

  datatype TripStatus = PLANNED | CANCELED

  /** The HTTP exceptions the services throw, with their messages.
      `Unauthorized` carries none: login throws it bare. `ForeignKeyFailure`
      is the store's own error when a delete would leave rows pointing at a
      deleted one; no service catches it, so it surfaces as a server error. */
  datatype Error =
    | NotFound(message: string)
    | BadRequest(message: string)
    | Conflict(message: string)
    | Forbidden(message: string)
    | Unauthorized
    | ForeignKeyFailure

  datatype Result<T> = Ok(value: T) | Err(error: Error)

  /** `{ message }` replies. */
  datatype Message = Message(message: string)

  /** `{ message, data }` replies. */
  datatype Reply<T> = Reply(message: string, data: T)

  /** The identity the bearer token carries: the JWT payload `{ sub, role }`. */
  datatype Identity = Identity(sub: Id, role: Role)

  /** A table row as a query returns it: its key and its fields. */
  datatype Row<T> = Row(id: Id, value: T)

  predicate Distinct<T(==)>(s: seq<T>)
  {
    forall i, j :: 0 <= i < j < |s| ==> s[i] != s[j]
  }

  function IdsOf<T>(rows: seq<Row<T>>): (ids: seq<Id>)
    ensures |ids| == |rows|
    ensures forall i :: 0 <= i < |rows| ==> ids[i] == rows[i].id
  {
    seq(|rows|, i requires 0 <= i < |rows| => rows[i].id)
  }

  /** Every row agrees with the table it was read from. */
  ghost predicate RowsFrom<T>(m: map<Id, T>, rows: seq<Row<T>>)
  {
    forall i :: 0 <= i < |rows| ==> rows[i].id in m && rows[i].value == m[rows[i].id]
  }

  /** `rows` lists the table `m` exactly: each key once, with its row. */
  ghost predicate Lists<T>(m: map<Id, T>, rows: seq<Row<T>>)
  {
    && RowsFrom(m, rows)
    && Distinct(IdsOf(rows))
    && (forall id :: id in IdsOf(rows) <==> id in m)
  }

  /** The rows of `m` at the keys `ids`, in that order. */
  function RowsAt<T>(m: map<Id, T>, ids: seq<Id>): (rows: seq<Row<T>>)
    requires forall i :: 0 <= i < |ids| ==> ids[i] in m
    ensures IdsOf(rows) == ids
    ensures RowsFrom(m, rows)
  {
    var rows := seq(|ids|, i requires 0 <= i < |ids| => Row(ids[i], m[ids[i]]));
    assert IdsOf(rows) == ids;
    rows
  }

  /** Some enumeration of the keys of `m`. A `findMany` without `orderBy`
      promises no order, so the order is an arbitrary choice. */
  ghost function Enumerate<T>(m: map<Id, T>): (ids: seq<Id>)
    ensures Distinct(ids)
    ensures forall k :: k in ids <==> k in m
    decreases m.Keys
  {
    if m.Keys == {} then []
    else
      var k :| k in m.Keys;
      var rest := Enumerate(m - {k});
      assert forall j :: 0 <= j < |rest| ==> rest[j] != k;
      [k] + rest
  }

  /** Every row of `m` once, in no promised order. */
  ghost function AllRows<T>(m: map<Id, T>): (rows: seq<Row<T>>)
    ensures Lists(m, rows)
    ensures |rows| == |m|
  {
    var ids := Enumerate(m);
    DistinctCount(m, ids);
    RowsAt(m, ids)
  }

  /** A listing of every key once has as many entries as the table. */
  lemma {:induction false} DistinctCount<T>(m: map<Id, T>, ids: seq<Id>)
    requires Distinct(ids)
    requires forall k :: k in ids <==> k in m
    ensures |ids| == |m|
    decreases |ids|
  {
    if ids == [] {
      assert m.Keys == {};
    } else {
      var k, rest := ids[0], ids[1..];
      assert k in m;
      forall j
        ensures j in rest <==> j in m - {k}
      {
        if j in rest {
          var n :| 0 <= n < |rest| && rest[n] == j;
          assert ids[n + 1] == j && ids[0] != ids[n + 1];
        }
        if j in m - {k} {
          assert j in ids && j != ids[0];
        }
      }
      DistinctCount(m - {k}, rest);
      assert (m - {k}).Keys == m.Keys - {k};
    }
  }
}

=== FILE: crypto.dfy ===
/** The two cryptographic collaborators, bcrypt and the JWT signer, as
    parameters: nothing about them is assumed except, where a property
    needs it, that `compare` accepts what `hash` produced. */
module Crypto {
  import opened Common

  /** A bcrypt hash string. */
  type Digest = string

  /** The random salt `bcrypt.hash` draws; the fixed cost factor 10 is part
      of `hash` itself. */
  type Salt = string

  /** `bcrypt.hash(password, 10)` with its salt made explicit, and
      `bcrypt.compare(password, digest)`. */
  datatype Bcrypt = Bcrypt(hash: (string, Salt) -> Digest, compare: (string, Digest) -> bool)

  /** The one property the model relies on: a password matches its own hash. */
  ghost predicate Sound(b: Bcrypt)
  {
    forall password, salt :: b.compare(password, b.hash(password, salt))
  }

  /** `jwtService.sign(payload)`: the access token minted for a payload. */
  type Signer = Identity -> string
}

=== FILE: employees_controller.dfy ===
/** The employee routes: one class-level `@Roles(ADMIN)` over four handlers,
    each addressed by the account's user id. */
module EmployeesController {
  import opened Common
  import opened Store
  import opened RolesGuard
  import EmployeesService

  datatype Handler = FindAll | FindOne | Update | Remove

  /** Where each handler's role list is declared: none on the handler, the
      class-level one on the class. */
  function Declaration(h: Handler): (d: Declared)
    ensures d.onHandler.None?
    ensures d.onClass.Some? && ADMIN in d.onClass.value && EMPLOYEE !in d.onClass.value && TOURIST !in d.onClass.value
  {
    Declared(None, Some([ADMIN]))
  }

  /** One role list is shared by every handler. */
  lemma SharedByAllHandlers(g: Handler, h: Handler)
    ensures Intended(Declaration(g)) == Intended(Declaration(h))
  {
  }

  /** As meant, every employee handler is for ADMIN only. */
  lemma AdminOnly(h: Handler, caller: Identity)
    ensures CanActivate(Intended(Declaration(h)), caller) <==> caller.role == ADMIN
  {
  }

  /** As written, the guard finds no list on the handler and lets an
      EMPLOYEE delete an employee, where the class-level list denies it. */
  lemma EmployeeMayRemoveAsWritten(caller: Identity)
    requires caller.role == EMPLOYEE
    ensures CanActivate(Lookup(Declaration(Remove)), caller)
    ensures !CanActivate(Intended(Declaration(Remove)), caller)
  {
    ClassListOnlyAdmitsAll(Declaration(Remove), caller);
  }

  /** `GET /employees`: the guard as meant, then every profile once. */
  ghost function List(employees: map<Id, Employee>, caller: Identity): (r: Result<seq<Row<Employee>>>)
    ensures r.Err? <==> caller.role != ADMIN
    ensures r.Err? ==> r.error == Denied
    ensures r.Ok? ==> Lists(employees, r.value)
  {
    AdminOnly(FindAll, caller);
    if !CanActivate(Intended(Declaration(FindAll)), caller) then Err(Denied)
    else Ok(EmployeesService.FindAll(employees))
  }

  /** `GET /employees/:userId`: the guard as meant, then the lookup by the
      account's user id. */
  function Get(employees: map<Id, Employee>, userId: Id, caller: Identity): (r: Result<Employee>)
    ensures caller.role != ADMIN ==> r == Err(Denied)
    ensures caller.role == ADMIN && userId !in employees ==> r == Err(NotFound("Employee not found"))
    ensures r.Ok? <==> caller.role == ADMIN && userId in employees
    ensures r.Ok? ==> r.value == employees[userId]
  {
    AdminOnly(FindOne, caller);
    if !CanActivate(Intended(Declaration(FindOne)), caller) then Err(Denied)
    else EmployeesService.FindByUserId(employees, userId)
  }
}

=== FILE: employees_service.dfy ===
/** Employee profiles, addressed by the owning account's user id. */
module EmployeesService {
  import opened Common
  import opened Store

  /** The update payload; only `position` is written. */
  datatype UpdateEmployeeDto = UpdateEmployeeDto(position: Option<string>)

  /** `findAll`: a `findMany` without ordering, so every employee profile once
      each, as `AllRows` states. */
  ghost function FindAll(employees: map<Id, Employee>): seq<Row<Employee>>
  {
    AllRows(employees)
  }

  function FindByUserId(employees: map<Id, Employee>, userId: Id): (r: Result<Employee>)
    ensures r.Ok? <==> userId in employees
    ensures r.Ok? ==> r.value == employees[userId]
    ensures r.Err? ==> r.error == NotFound("Employee not found")
  {
    if userId in employees then Ok(employees[userId]) else Err(NotFound("Employee not found"))
  }

  method Update(db: Database, userId: Id, dto: UpdateEmployeeDto) returns (r: Result<Employee>)
    requires db.Valid()
    modifies db
    ensures db.Valid()
    ensures r.Ok? <==> userId in old(db.employees)
    ensures r.Err? ==> r.error == NotFound("Employee not found") && unchanged(db)
    ensures r.Ok? ==>
      && r.value == Employee(GetOr(dto.position, old(db.employees)[userId].position))
      && db.employees == old(db.employees)[userId := r.value]
    ensures db.users == old(db.users) && db.tourists == old(db.tourists) && db.trips == old(db.trips)
  {
    if userId !in db.employees {
      return Err(NotFound("Employee not found"));
    }
    var employee := db.employees[userId].(position := GetOr(dto.position, db.employees[userId].position));
    db.employees := db.employees[userId := employee];
    return Ok(employee);
  }

  /** Deletes the profile and its account together, and nothing else. */
  method Remove(db: Database, userId: Id) returns (r: Result<Message>)
    requires db.Valid()
    modifies db
    ensures db.Valid()
    ensures r.Ok? <==> userId in old(db.employees)
    ensures r.Err? ==> r.error == NotFound("Employee not found") && unchanged(db)
    ensures r.Ok? ==>
      && r.value == Message("Employee removed successfully")
      && db.employees == old(db.employees) - {userId}
      && db.users == old(db.users) - {userId}
    ensures db.tourists == old(db.tourists) && db.trips == old(db.trips)
  {
    if userId !in db.employees {
      return Err(NotFound("Employee not found"));
    }
    NoTouristOfEmployee(db.users, db.employees, db.tourists, db.trips, userId);
    RemoveAccount(db.users, db.employees, db.tourists, db.trips, userId);
    // the transaction: the profile, then the account
    db.employees := db.employees - {userId};
    db.users := db.users - {userId};
    return Ok(Message("Employee removed successfully"));
  }
}

=== FILE: roles_guard.dfy ===
/** The role guard: an allow/deny decision from the role list a handler
    declares (if any) and the role of the authenticated caller. */
module RolesGuard {
  import opened Common

  /** `canActivate`: `roles` is the handler's `@Roles` metadata, absent when
      the handler declares none. */
  function CanActivate(roles: Option<seq<Role>>, caller: Identity): (allowed: bool)
    ensures roles.None? ==> allowed
    ensures roles.Some? ==> (allowed <==> exists i :: 0 <= i < |roles.value| && roles.value[i] == caller.role)
  {
    match roles
    case None => true
    case Some(list) => caller.role in list
  }

  /** Where `@Roles` lists can be declared for a route: on its handler
      method and on its controller class. */
  datatype Declared = Declared(onHandler: Option<seq<Role>>, onClass: Option<seq<Role>>)

  /** The metadata the guard reads: the lookup goes to the handler only. */
  function Lookup(d: Declared): Option<seq<Role>>
  {
    d.onHandler
  }

  /** The list a route is meant to be guarded by: its handler's own list,
      else its class's. */
  function Intended(d: Declared): Option<seq<Role>>
  {
    if d.onHandler.Some? then d.onHandler else d.onClass
  }

  /** The guard never consults a class-level list: whatever the class
      declares, the decision is the one for no class list at all. */
  lemma ClassListIgnored(d: Declared, caller: Identity)
    ensures CanActivate(Lookup(d), caller) == CanActivate(Lookup(d.(onClass := None)), caller)
  {
  }

  /** So a route whose only list sits on its class admits every caller. */
  lemma ClassListOnlyAdmitsAll(d: Declared, caller: Identity)
    requires d.onHandler.None?
    ensures CanActivate(Lookup(d), caller)
  {
  }

  /** Where the handler declares its own list, the lookup finds the list
      the route is meant to have. */
  lemma HandlerListHonoured(d: Declared, caller: Identity)
    requires d.onHandler.Some?
    ensures CanActivate(Lookup(d), caller) == CanActivate(Intended(d), caller)
  {
  }

  /** What the framework answers when the guard denies the caller. */
  const Denied := Forbidden("Forbidden resource")

  /** An empty role list denies every caller. */
  lemma EmptyListDeniesAll(caller: Identity)
    ensures !CanActivate(Some([]), caller)
  {
  }

  /** Enlarging the list never revokes access. */
  lemma Monotonic(small: seq<Role>, large: seq<Role>, caller: Identity)
    requires forall r :: r in small ==> r in large
    ensures CanActivate(Some(small), caller) ==> CanActivate(Some(large), caller)
  {
  }

  /** The decision depends on the caller's role alone, never on who the
      caller is nor on stored data (it reads no table). */
  lemma OnlyRoleMatters(roles: Option<seq<Role>>, a: Identity, b: Identity)
    requires a.role == b.role
    ensures CanActivate(roles, a) == CanActivate(roles, b)
  {
  }
}

=== FILE: store.dfy ===
/** The persistent store the services share: four tables, the constraints the
    schema and the services together keep on them, and lookups by the
    schema's unique keys. */
module Store {
  import opened Common
  import opened Crypto

  /** The opaque JSON `destination` of a trip. */
  type Destination = string

  datatype User = User(email: string, name: string, passwordHash: Digest, role: Role, createdAt: int)

  /** Employee profile; the table is keyed by the owning user's id. */
  datatype Employee = Employee(position: string)

  /** Tourist profile; the table is keyed by the profile id. */
  datatype Tourist = Tourist(userId: Id, phone: string, gender: Gender, age: int, address: string)

  datatype Trip = Trip(
    touristId: Id,
    startDate: int,
    endDate: int,
    destination: Destination,
    status: TripStatus,
    canceledAt: Option<int>,
    createdAt: int)

  /** The referential action of a trip's required link to its tourist
      profile. The schema that fixes it is not part of this model, so the
      operations that delete a tourist profile take it as a parameter:
      `Restrict` makes the delete fail while trips point at the profile,
      `Cascade` deletes those trips with it. */
  datatype OnDelete = Restrict | Cascade

  predicate EmailTaken(users: map<Id, User>, email: string)
  {
    exists id :: id in users && users[id].email == email
  }

  predicate HasTourist(tourists: map<Id, Tourist>, userId: Id)
  {
    exists tid :: tid in tourists && tourists[tid].userId == userId
  }

  /** The trip belongs to the tourist profile of account `userId`. */
  predicate OwnedBy(tourists: map<Id, Tourist>, trip: Trip, userId: Id)
  {
    trip.touristId in tourists && tourists[trip.touristId].userId == userId
  }

  /** Some trip belongs to the tourist profile of account `userId`. */
  predicate HasTripsOf(trips: map<Id, Trip>, tourists: map<Id, Tourist>, userId: Id)
  {
    exists id :: id in trips && OwnedBy(tourists, trips[id], userId)
  }

  /** `email` is a unique column of the user table. */
  ghost predicate EmailsUnique(users: map<Id, User>)
  {
    forall a, b :: a in users && b in users && users[a].email == users[b].email ==> a == b
  }

  /** `userId` is a unique column of the tourist table. */
  ghost predicate TouristUsersUnique(tourists: map<Id, Tourist>)
  {
    forall a, b :: a in tourists && b in tourists && tourists[a].userId == tourists[b].userId ==> a == b
  }

  /** Every employee profile belongs to an existing EMPLOYEE account. */
  ghost predicate EmployeesLinked(users: map<Id, User>, employees: map<Id, Employee>)
  {
    forall uid :: uid in employees ==> uid in users && users[uid].role == EMPLOYEE
  }

  /** Every tourist profile belongs to an existing TOURIST account. */
  ghost predicate TouristsLinked(users: map<Id, User>, tourists: map<Id, Tourist>)
  {
    forall tid :: tid in tourists ==> tourists[tid].userId in users && users[tourists[tid].userId].role == TOURIST
  }

  /** No EMPLOYEE or TOURIST account lacks its profile. */
  ghost predicate ProfilesComplete(users: map<Id, User>, employees: map<Id, Employee>, tourists: map<Id, Tourist>)
  {
    forall uid :: uid in users ==>
      && (users[uid].role == EMPLOYEE ==> uid in employees)
      && (users[uid].role == TOURIST ==> HasTourist(tourists, uid))
  }

  /** A CANCELED trip always carries its cancellation time: only the cancel
      operation, which stamps it, can make a trip CANCELED. */
  ghost predicate CancelStamped(trips: map<Id, Trip>)
  {
    forall id :: id in trips && trips[id].status == CANCELED ==> trips[id].canceledAt.Some?
  }

  /** Every trip points at an existing tourist profile (a foreign key). */
  ghost predicate TripsLinked(trips: map<Id, Trip>, tourists: map<Id, Tourist>)
  {
    forall id :: id in trips ==> trips[id].touristId in tourists
  }

  ghost predicate Consistent(users: map<Id, User>, employees: map<Id, Employee>,
                             tourists: map<Id, Tourist>, trips: map<Id, Trip>)
  {
    && EmailsUnique(users)
    && TouristUsersUnique(tourists)
    && EmployeesLinked(users, employees)
    && TouristsLinked(users, tourists)
    && ProfilesComplete(users, employees, tourists)
    && CancelStamped(trips)
    && TripsLinked(trips, tourists)
  }

  /** The database every service writes through. */
  class Database {
    var users: map<Id, User>
    var employees: map<Id, Employee>
    var tourists: map<Id, Tourist>
    var trips: map<Id, Trip>

    ghost predicate Valid()
      reads this
    {
      Consistent(users, employees, tourists, trips)
    }

    constructor ()
      ensures Valid()
      ensures users == map[] && employees == map[] && tourists == map[] && trips == map[]
    {
      users, employees, tourists, trips := map[], map[], map[], map[];
    }
  }

  /** `user.findUnique({ where: { email } })`. */
  function UserByEmail(users: map<Id, User>, email: string): (r: Option<Id>)
    requires EmailsUnique(users)
    ensures r.None? <==> !EmailTaken(users, email)
    ensures r.Some? ==> r.value in users && users[r.value].email == email
  {
    if EmailTaken(users, email) then
      Some(var id :| id in users && users[id].email == email; id)
    else
      None
  }

  /** `tourist.findUnique({ where: { userId } })`. */
  function TouristByUserId(tourists: map<Id, Tourist>, userId: Id): (r: Option<Id>)
    requires TouristUsersUnique(tourists)
    ensures r.None? <==> !HasTourist(tourists, userId)
    ensures r.Some? ==> r.value in tourists && tourists[r.value].userId == userId
  {
    if HasTourist(tourists, userId) then
      Some(var tid :| tid in tourists && tourists[tid].userId == userId; tid)
    else
      None
  }

  /** `tourist.delete({ where: { userId } })`: the table without the profile
      of `userId`. */
  function WithoutTouristOf(tourists: map<Id, Tourist>, userId: Id): (r: map<Id, Tourist>)
    ensures forall tid :: tid in r <==> tid in tourists && tourists[tid].userId != userId
    ensures forall tid :: tid in r ==> r[tid] == tourists[tid]
  {
    map tid | tid in tourists && tourists[tid].userId != userId :: tourists[tid]
  }

  /** The trips table once the profile of account `userId` is deleted and
      its trips cascade: the trips of every other profile stay as they were. */
  function WithoutTripsOf(trips: map<Id, Trip>, tourists: map<Id, Tourist>, userId: Id): (r: map<Id, Trip>)
    ensures forall id :: id in r <==> id in trips && !OwnedBy(tourists, trips[id], userId)
    ensures forall id :: id in r ==> r[id] == trips[id]
    ensures !HasTripsOf(r, tourists, userId)
  {
    map id | id in trips && !OwnedBy(tourists, trips[id], userId) :: trips[id]
  }

  /** Adding an EMPLOYEE account with its profile, under a fresh id and an
      unused email, keeps the store consistent. */
  lemma AddEmployeeAccount(users: map<Id, User>, employees: map<Id, Employee>,
                           tourists: map<Id, Tourist>, trips: map<Id, Trip>,
                           uid: Id, user: User, profile: Employee)
    requires Consistent(users, employees, tourists, trips)
    requires uid !in users && user.role == EMPLOYEE && !EmailTaken(users, user.email)
    ensures Consistent(users[uid := user], employees[uid := profile], tourists, trips)
  {
  }

  /** Adding a TOURIST account with its profile, under fresh ids and an
      unused email, keeps the store consistent. */
  lemma AddTouristAccount(users: map<Id, User>, employees: map<Id, Employee>,
                          tourists: map<Id, Tourist>, trips: map<Id, Trip>,
                          uid: Id, user: User, tid: Id, profile: Tourist)
    requires Consistent(users, employees, tourists, trips)
    requires uid !in users && tid !in tourists && user.role == TOURIST && !EmailTaken(users, user.email)
    requires profile.userId == uid
    ensures Consistent(users[uid := user], employees, tourists[tid := profile], trips)
  {
    var users', tourists' := users[uid := user], tourists[tid := profile];
    forall a, b | a in users' && b in users' && users'[a].email == users'[b].email
      ensures a == b
    {
      assert a != uid ==> a in users;
      assert b != uid ==> b in users;
    }
    forall a, b | a in tourists' && b in tourists' && tourists'[a].userId == tourists'[b].userId
      ensures a == b
    {
      assert a != tid ==> tourists[a].userId in users;
      assert b != tid ==> tourists[b].userId in users;
    }
    forall u | u in users'
      ensures users'[u].role == EMPLOYEE ==> u in employees
      ensures users'[u].role == TOURIST ==> HasTourist(tourists', u)
    {
      if u == uid {
        assert tourists'[tid].userId == u;
      } else if users[u].role == TOURIST {
        var t :| t in tourists && tourists[t].userId == u;
        assert tourists'[t].userId == u;
      }
    }
  }

  /** Removing an account together with whichever profile it has, and the
      trips of that profile, keeps the store consistent: no profile is left
      pointing at the account and no trip at the profile. */
  lemma RemoveAccount(users: map<Id, User>, employees: map<Id, Employee>,
                      tourists: map<Id, Tourist>, trips: map<Id, Trip>, uid: Id)
    requires Consistent(users, employees, tourists, trips)
    ensures Consistent(users - {uid}, employees - {uid}, WithoutTouristOf(tourists, uid), WithoutTripsOf(trips, tourists, uid))
  {
    var users', tourists', trips' := users - {uid}, WithoutTouristOf(tourists, uid), WithoutTripsOf(trips, tourists, uid);
    forall u | u in users' && users'[u].role == TOURIST
      ensures HasTourist(tourists', u)
    {
      var t :| t in tourists && tourists[t].userId == u;
      assert t in tourists' && tourists'[t].userId == u;
    }
    forall id | id in trips'
      ensures trips'[id].touristId in tourists'
    {
      assert !OwnedBy(tourists, trips[id], uid);
    }
  }

  /** Removing a tourist account with its profile, and the profile's trips,
      keeps the store consistent; the employee table needs no change. */
  lemma RemoveTouristAccount(users: map<Id, User>, employees: map<Id, Employee>,
                             tourists: map<Id, Tourist>, trips: map<Id, Trip>, uid: Id)
    requires Consistent(users, employees, tourists, trips) && HasTourist(tourists, uid)
    ensures Consistent(users - {uid}, employees, WithoutTouristOf(tourists, uid), WithoutTripsOf(trips, tourists, uid))
  {
    NoEmployeeOfTourist(users, employees, tourists, trips, uid);
    RemoveAccount(users, employees, tourists, trips, uid);
  }

  /** Rewriting an account's credentials keeps the store consistent as long
      as the new email is the old one or one nobody uses. */
  lemma ChangeCredentials(users: map<Id, User>, employees: map<Id, Employee>,
                          tourists: map<Id, Tourist>, trips: map<Id, Trip>,
                          uid: Id, email: string, passwordHash: Digest)
    requires Consistent(users, employees, tourists, trips)
    requires uid in users && (email == users[uid].email || !EmailTaken(users, email))
    ensures Consistent(users[uid := users[uid].(email := email, passwordHash := passwordHash)], employees, tourists, trips)
  {
    var users' := users[uid := users[uid].(email := email, passwordHash := passwordHash)];
    forall a, b | a in users' && b in users' && users'[a].email == users'[b].email
      ensures a == b
    {
      assert a != uid ==> users'[a] == users[a];
      assert b != uid ==> users'[b] == users[b];
    }
    assert forall u :: u in users' ==> users'[u].role == users[u].role;
  }

  /** An employee account has no tourist profile. */
  lemma NoTouristOfEmployee(users: map<Id, User>, employees: map<Id, Employee>,
                            tourists: map<Id, Tourist>, trips: map<Id, Trip>, uid: Id)
    requires Consistent(users, employees, tourists, trips) && uid in employees
    ensures !HasTourist(tourists, uid) && !HasTripsOf(trips, tourists, uid)
    ensures WithoutTouristOf(tourists, uid) == tourists
    ensures WithoutTripsOf(trips, tourists, uid) == trips
  {
  }

  /** Deleting a profile an account does not have changes nothing. */
  lemma AbsentProfiles(employees: map<Id, Employee>, tourists: map<Id, Tourist>, trips: map<Id, Trip>, uid: Id)
    ensures uid !in employees ==> employees - {uid} == employees
    ensures !HasTourist(tourists, uid) ==> WithoutTouristOf(tourists, uid) == tourists
    ensures !HasTourist(tourists, uid) ==> WithoutTripsOf(trips, tourists, uid) == trips
  {
  }

  /** A tourist account has no employee profile. */
  lemma NoEmployeeOfTourist(users: map<Id, User>, employees: map<Id, Employee>,
                            tourists: map<Id, Tourist>, trips: map<Id, Trip>, uid: Id)
    requires Consistent(users, employees, tourists, trips) && HasTourist(tourists, uid)
    ensures uid in users && uid !in employees
    ensures employees - {uid} == employees
  {
  }

  /** Rewriting a tourist profile that stays with the same account keeps the
      store consistent. */
  lemma ReplaceTourist(users: map<Id, User>, employees: map<Id, Employee>,
                       tourists: map<Id, Tourist>, trips: map<Id, Trip>,
                       tid: Id, profile: Tourist)
    requires Consistent(users, employees, tourists, trips)
    requires tid in tourists && profile.userId == tourists[tid].userId
    ensures Consistent(users, employees, tourists[tid := profile], trips)
  {
    var tourists' := tourists[tid := profile];
    forall u | u in users && users[u].role == TOURIST
      ensures HasTourist(tourists', u)
    {
      var t :| t in tourists && tourists[t].userId == u;
      assert tourists'[t].userId == u;
    }
  }

  /** Deleting by the unique `userId` removes exactly one profile. */
  lemma RemovesOneProfile(tourists: map<Id, Tourist>, uid: Id)
    requires TouristUsersUnique(tourists) && HasTourist(tourists, uid)
    ensures |WithoutTouristOf(tourists, uid)| == |tourists| - 1
  {
    var tid :| tid in tourists && tourists[tid].userId == uid;
    assert WithoutTouristOf(tourists, uid) == tourists - {tid};
    assert (tourists - {tid}).Keys == tourists.Keys - {tid};
  }
}

=== FILE: tourists_controller.dfy ===
/** The tourist-profile routes: one class-level `@Roles(EMPLOYEE)` over four
    handlers, each addressed by the account's user id. */
module TouristsController {
  import opened Common
  import opened Store
  import opened RolesGuard
  import TouristsService

  datatype Handler = FindAll | FindOne | Update | Remove

  /** Where each handler's role list is declared: none on the handler, the
      class-level one on the class. */
  function Declaration(h: Handler): (d: Declared)
    ensures d.onHandler.None?
    ensures d.onClass.Some? && EMPLOYEE in d.onClass.value && ADMIN !in d.onClass.value && TOURIST !in d.onClass.value
  {
    Declared(None, Some([EMPLOYEE]))
  }

  /** One role list is shared by every handler. */
  lemma SharedByAllHandlers(g: Handler, h: Handler)
    ensures Intended(Declaration(g)) == Intended(Declaration(h))
  {
  }

  /** As meant, every tourist-profile handler is for EMPLOYEE only; ADMIN is
      not admitted. */
  lemma EmployeeOnly(h: Handler, caller: Identity)
    ensures CanActivate(Intended(Declaration(h)), caller) <==> caller.role == EMPLOYEE
  {
  }

  /** As written, the guard finds no list on the handler and admits a
      TOURIST (or an ADMIN) to every tourist-profile handler, where the
      class-level list admits only EMPLOYEE. */
  lemma AnyRoleAdmittedAsWritten(h: Handler, caller: Identity)
    ensures CanActivate(Lookup(Declaration(h)), caller)
    ensures caller.role != EMPLOYEE ==> !CanActivate(Intended(Declaration(h)), caller)
  {
    ClassListOnlyAdmitsAll(Declaration(h), caller);
  }

  /** `GET /tourists`: the guard as meant, then every profile once. */
  ghost function List(tourists: map<Id, Tourist>, caller: Identity): (r: Result<seq<Row<Tourist>>>)
    ensures r.Err? <==> caller.role != EMPLOYEE
    ensures r.Err? ==> r.error == Denied
    ensures r.Ok? ==> Lists(tourists, r.value)
  {
    EmployeeOnly(FindAll, caller);
    if !CanActivate(Intended(Declaration(FindAll)), caller) then Err(Denied)
    else Ok(TouristsService.FindAll(tourists))
  }

  /** `GET /tourists/:userId`: the guard as meant, then the lookup by the
      account's user id (not the profile id). */
  function Get(tourists: map<Id, Tourist>, userId: Id, caller: Identity): (r: Result<Row<Tourist>>)
    requires TouristUsersUnique(tourists)
    ensures caller.role != EMPLOYEE ==> r == Err(Denied)
    ensures caller.role == EMPLOYEE && !HasTourist(tourists, userId) ==> r == Err(NotFound("Tourist not found"))
    ensures r.Ok? <==> caller.role == EMPLOYEE && HasTourist(tourists, userId)
    ensures r.Ok? ==> r.value.id in tourists && r.value.value == tourists[r.value.id] && r.value.value.userId == userId
  {
    EmployeeOnly(FindOne, caller);
    if !CanActivate(Intended(Declaration(FindOne)), caller) then Err(Denied)
    else TouristsService.FindByUserId(tourists, userId)
  }
}

=== FILE: tourists_service.dfy ===
/** Tourist profiles, addressed by the owning account's user id. */
module TouristsService {
  import opened Common
  import opened Store

  /** The partial profile update: each field optional. */
  datatype UpdateTouristDto = UpdateTouristDto(
    phone: Option<string>,
    gender: Option<Gender>,
    age: Option<int>,
    address: Option<string>)

  /** `findAll`: a `findMany` without ordering, so every tourist profile once
      each, as `AllRows` states. */
  ghost function FindAll(tourists: map<Id, Tourist>): seq<Row<Tourist>>
  {
    AllRows(tourists)
  }

  /** `findByUserId`: the profile row whose `userId` is given. */
  function FindByUserId(tourists: map<Id, Tourist>, userId: Id): (r: Result<Row<Tourist>>)
    requires TouristUsersUnique(tourists)
    ensures r.Ok? <==> HasTourist(tourists, userId)
    ensures r.Ok? ==> r.value.id in tourists && r.value.value == tourists[r.value.id] && r.value.value.userId == userId
    ensures r.Err? ==> r.error == NotFound("Tourist not found")
  {
    match TouristByUserId(tourists, userId)
    case None => Err(NotFound("Tourist not found"))
    case Some(tid) => Ok(Row(tid, tourists[tid]))
  }

  /** The stored profile with the supplied fields written over it. */
  function Patch(tourist: Tourist, dto: UpdateTouristDto): Tourist
  {
    tourist.(phone := GetOr(dto.phone, tourist.phone),
             gender := GetOr(dto.gender, tourist.gender),
             age := GetOr(dto.age, tourist.age),
             address := GetOr(dto.address, tourist.address))
  }

  /** Supplied fields are overwritten, the others kept; the profile stays
      linked to the same account. */
  lemma PatchKeepsUnsupplied(tourist: Tourist, dto: UpdateTouristDto)
    ensures var t := Patch(tourist, dto);
      && t.userId == tourist.userId
      && (dto.phone.None? ==> t.phone == tourist.phone) && (dto.phone.Some? ==> t.phone == dto.phone.value)
      && (dto.gender.None? ==> t.gender == tourist.gender) && (dto.gender.Some? ==> t.gender == dto.gender.value)
      && (dto.age.None? ==> t.age == tourist.age) && (dto.age.Some? ==> t.age == dto.age.value)
      && (dto.address.None? ==> t.address == tourist.address) && (dto.address.Some? ==> t.address == dto.address.value)
  {
  }

  method Update(db: Database, userId: Id, dto: UpdateTouristDto) returns (r: Result<Tourist>)
    requires db.Valid()
    modifies db
    ensures db.Valid()
    ensures r.Ok? <==> HasTourist(old(db.tourists), userId)
    ensures r.Err? ==> r.error == NotFound("Tourist not found") && unchanged(db)
    ensures r.Ok? ==>
      exists tid :: && tid in old(db.tourists) && old(db.tourists)[tid].userId == userId
                    && r.value == Patch(old(db.tourists)[tid], dto)
                    && db.tourists == old(db.tourists)[tid := r.value]
    ensures db.users == old(db.users) && db.employees == old(db.employees) && db.trips == old(db.trips)
  {
    if !HasTourist(db.tourists, userId) {
      return Err(NotFound("Tourist not found"));
    }
    var tid :| tid in db.tourists && db.tourists[tid].userId == userId;
    var tourist := Patch(db.tourists[tid], dto);
    ReplaceTourist(db.users, db.employees, db.tourists, db.trips, tid, tourist);
    db.tourists := db.tourists[tid := tourist];
    return Ok(tourist);
  }

  /** Deletes the profile and its account together. The profile's trips
      either make the delete fail (`Restrict`, and the transaction rolls
      back) or go with it (`Cascade`); the employee table and the trips of
      every other profile stay as they were. */
  method Remove(db: Database, userId: Id, onDelete: OnDelete) returns (r: Result<Message>)
    requires db.Valid()
    modifies db
    ensures db.Valid()
    ensures r.Ok? <==> HasTourist(old(db.tourists), userId)
                       && (onDelete == Cascade || !HasTripsOf(old(db.trips), old(db.tourists), userId))
    ensures !HasTourist(old(db.tourists), userId) ==> r == Err(NotFound("Tourist not found"))
    ensures onDelete == Restrict && HasTripsOf(old(db.trips), old(db.tourists), userId) ==> r == Err(ForeignKeyFailure)
    ensures r.Err? ==> unchanged(db)
    ensures r.Ok? ==>
      && r.value == Message("Tourist removed successfully")
      && db.tourists == WithoutTouristOf(old(db.tourists), userId)
      && |db.tourists| == |old(db.tourists)| - 1
      && db.users == old(db.users) - {userId}
      && db.trips == WithoutTripsOf(old(db.trips), old(db.tourists), userId)
    ensures db.employees == old(db.employees)
  {
    if !HasTourist(db.tourists, userId) {
      return Err(NotFound("Tourist not found"));
    }
    if onDelete == Restrict && HasTripsOf(db.trips, db.tourists, userId) {
      // the profile delete fails and the transaction rolls back
      return Err(ForeignKeyFailure);
    }
    var users, tourists, trips := db.users - {userId}, WithoutTouristOf(db.tourists, userId), WithoutTripsOf(db.trips, db.tourists, userId);
    assert Consistent(users, db.employees, tourists, trips) by {
      RemoveTouristAccount(db.users, db.employees, db.tourists, db.trips, userId);
    }
    assert |tourists| == |db.tourists| - 1 by {
      RemovesOneProfile(db.tourists, userId);
    }
    // the transaction: the profile (and, cascading, its trips), then the account
    db.tourists, db.trips, db.users := tourists, trips, users;
    return Ok(Message("Tourist removed successfully"));
  }
}

=== FILE: trips_controller.dfy ===
/** The trip routes: a per-handler `@Roles` list, checked by the role guard
    before the one service call each handler makes. */
module TripsController {
  import opened Common
  import opened Store
  import opened RolesGuard
  import TripsService

  datatype Handler = Create | FindAll | FindOne | Update | Cancel | Remove

  /** The `@Roles` list each handler declares. */
  function RolesOf(h: Handler): (roles: Option<seq<Role>>)
    ensures roles.Some? && ADMIN !in roles.value
  {
    match h
    case Create => Some([EMPLOYEE])
    case FindAll => Some([EMPLOYEE, TOURIST])
    case FindOne => Some([EMPLOYEE, TOURIST])
    case Update => Some([EMPLOYEE])
    case Cancel => Some([EMPLOYEE])
    case Remove => Some([EMPLOYEE])
  }

  /** Creating, updating, cancelling and deleting trips is for EMPLOYEE
      callers only: ADMIN and TOURIST get 403. */
  lemma WritesAreEmployeeOnly(h: Handler, caller: Identity)
    requires h != FindAll && h != FindOne
    ensures CanActivate(RolesOf(h), caller) <==> caller.role == EMPLOYEE
  {
  }

  /** Listing and reading trips is for EMPLOYEE and TOURIST callers. */
  lemma ReadsAreEmployeeOrTourist(h: Handler, caller: Identity)
    requires h == FindAll || h == FindOne
    ensures CanActivate(RolesOf(h), caller) <==> caller.role == EMPLOYEE || caller.role == TOURIST
  {
  }

  /** No trip handler admits ADMIN. */
  lemma AdminHasNoTripHandler(h: Handler, caller: Identity)
    requires caller.role == ADMIN
    ensures !CanActivate(RolesOf(h), caller)
  {
  }

  /** `GET /trips`: the guard, then the listing scoped by the caller's
      identity. */
  ghost function List(trips: map<Id, Trip>, tourists: map<Id, Tourist>, caller: Identity): (r: Result<seq<Row<Trip>>>)
    requires TouristUsersUnique(tourists)
    ensures r.Err? <==> caller.role == ADMIN
    ensures r.Err? ==> r.error == Denied
    ensures r.Ok? ==> forall id :: id in IdsOf(r.value) <==> id in trips && TripsService.InScope(tourists, caller, trips[id])
  {
    ReadsAreEmployeeOrTourist(FindAll, caller);
    if !CanActivate(RolesOf(FindAll), caller) then Err(Denied)
    else Ok(TripsService.FindAllForUser(trips, tourists, caller))
  }

  /** `GET /trips/:id`: the guard, then the scoped read. A TOURIST that
      passes the guard gets 404 for a missing trip and 403 for another
      tourist's trip. */
  function Get(trips: map<Id, Trip>, tourists: map<Id, Tourist>, id: Id, caller: Identity): (r: Result<Trip>)
    ensures caller.role == ADMIN ==> r == Err(Denied)
    ensures caller.role != ADMIN && id !in trips ==> r == Err(NotFound("Trip not found"))
    ensures r.Ok? <==> caller.role != ADMIN && id in trips && TripsService.InScope(tourists, caller, trips[id])
    ensures r.Ok? ==> r.value == trips[id]
  {
    ReadsAreEmployeeOrTourist(FindOne, caller);
    if !CanActivate(RolesOf(FindOne), caller) then Err(Denied)
    else TripsService.FindOneForUser(trips, tourists, id, caller)
  }
}

=== FILE: trips_service.dfy ===
/** The trip service: date-range validation, the PLANNED/CANCELED lifecycle
    and owner-scoped reads for TOURIST callers. */
module TripsService {
  import opened Common
  import opened Store

  datatype CreateTripDto = CreateTripDto(touristId: Id, startDate: int, endDate: int, destination: Destination)

  /** Every field optional; an absent field is left as stored. */
  datatype UpdateTripDto = UpdateTripDto(
    startDate: Option<int>,
    endDate: Option<int>,
    destination: Option<Destination>,
    status: Option<TripStatus>)

  const InvalidRange := "Invalid trip date range"

  method Create(db: Database, dto: CreateTripDto, newId: Id, now: int) returns (r: Result<Trip>)
    requires db.Valid() && newId !in db.trips
    modifies db
    ensures db.Valid()
    ensures r.Ok? <==> dto.startDate < dto.endDate && dto.touristId in old(db.tourists)
    ensures dto.startDate >= dto.endDate ==> r == Err(BadRequest(InvalidRange))
    ensures dto.startDate < dto.endDate && dto.touristId !in old(db.tourists) ==> r == Err(NotFound("Tourist not found"))
    ensures r.Err? ==> unchanged(db)
    ensures r.Ok? ==>
      && r.value == Trip(dto.touristId, dto.startDate, dto.endDate, dto.destination, PLANNED, None, now)
      && db.trips == old(db.trips)[newId := r.value]
    ensures db.users == old(db.users) && db.employees == old(db.employees) && db.tourists == old(db.tourists)
  {
    if dto.startDate >= dto.endDate {
      return Err(BadRequest(InvalidRange));
    }
    if dto.touristId !in db.tourists {
      return Err(NotFound("Tourist not found"));
    }
    var trip := Trip(dto.touristId, dto.startDate, dto.endDate, dto.destination, PLANNED, None, now);
    db.trips := db.trips[newId := trip];
    return Ok(trip);
  }

  /** Rows ordered by `createdAt`, newest first. */
  ghost predicate NewestFirst(rows: seq<Row<Trip>>)
  {
    forall i, j :: 0 <= i < j < |rows| ==> rows[i].value.createdAt >= rows[j].value.createdAt
  }

  lemma {:induction false} NewestExists(trips: map<Id, Trip>, ids: set<Id>)
    requires ids != {} && ids <= trips.Keys
    ensures exists k :: k in ids && forall j :: j in ids ==> trips[j].createdAt <= trips[k].createdAt
  {
    var x :| x in ids;
    if ids != {x} {
      NewestExists(trips, ids - {x});
      var k :| k in ids - {x} && forall j :: j in ids - {x} ==> trips[j].createdAt <= trips[k].createdAt;
      if trips[x].createdAt > trips[k].createdAt {
        assert forall j :: j in ids ==> trips[j].createdAt <= trips[x].createdAt;
      } else {
        assert forall j :: j in ids ==> trips[j].createdAt <= trips[k].createdAt;
      }
    } else {
      assert forall j :: j in ids ==> trips[j].createdAt <= trips[x].createdAt;
    }
  }

  /** The keys `ids`, newest trip first; ties in any order. */
  ghost function ByNewest(trips: map<Id, Trip>, ids: set<Id>): (order: seq<Id>)
    requires ids <= trips.Keys
    ensures Distinct(order)
    ensures forall id :: id in order <==> id in ids
    ensures forall i, j :: 0 <= i < j < |order| ==> trips[order[i]].createdAt >= trips[order[j]].createdAt
    decreases ids
  {
    if ids == {} then []
    else
      NewestExists(trips, ids);
      var k :| k in ids && forall j :: j in ids ==> trips[j].createdAt <= trips[k].createdAt;
      var rest := ByNewest(trips, ids - {k});
      assert forall j :: 0 <= j < |rest| ==> rest[j] != k && rest[j] in ids;
      [k] + rest
  }

  /** Trips of one tourist, when `touristId` is given. */
  ghost predicate Filtered(trip: Trip, touristId: Option<Id>)
  {
    touristId.None? || trip.touristId == touristId.value
  }

  /** The private `findAll(touristId?)`: every trip, or the trips of one
      tourist profile, newest first. */
  ghost function FindAll(trips: map<Id, Trip>, touristId: Option<Id>): (rows: seq<Row<Trip>>)
    ensures RowsFrom(trips, rows) && Distinct(IdsOf(rows)) && NewestFirst(rows)
    ensures forall id :: id in IdsOf(rows) <==> id in trips && Filtered(trips[id], touristId)
  {
    var ids := ByNewest(trips, set id | id in trips && Filtered(trips[id], touristId));
    RowsAt(trips, ids)
  }

  /** The caller may see the trip: any non-TOURIST caller, or its owner. */
  ghost predicate InScope(tourists: map<Id, Tourist>, caller: Identity, trip: Trip)
  {
    caller.role != TOURIST || OwnedBy(tourists, trip, caller.sub)
  }

  /** `findAllForUser`: a TOURIST gets the trips of its own profile (none if
      it has no profile), everybody else every trip; newest first. */
  ghost function FindAllForUser(trips: map<Id, Trip>, tourists: map<Id, Tourist>, caller: Identity): (rows: seq<Row<Trip>>)
    requires TouristUsersUnique(tourists)
    ensures RowsFrom(trips, rows) && Distinct(IdsOf(rows)) && NewestFirst(rows)
    ensures forall id :: id in IdsOf(rows) <==> id in trips && InScope(tourists, caller, trips[id])
  {
    if caller.role == TOURIST then
      match TouristByUserId(tourists, caller.sub)
      case None => []
      case Some(tid) => FindAll(trips, Some(tid))
    else
      FindAll(trips, None)
  }

  /** `findOneForUser`: existence is checked before ownership. */
  function FindOneForUser(trips: map<Id, Trip>, tourists: map<Id, Tourist>, id: Id, caller: Identity): (r: Result<Trip>)
    ensures r.Ok? <==> id in trips && InScope(tourists, caller, trips[id])
    ensures r.Ok? ==> r.value == trips[id]
    ensures id !in trips ==> r == Err(NotFound("Trip not found"))
    ensures id in trips && !InScope(tourists, caller, trips[id]) ==> r == Err(Forbidden("Access denied"))
  {
    if id !in trips then Err(NotFound("Trip not found"))
    else if caller.role == TOURIST && !OwnedBy(tourists, trips[id], caller.sub) then
      Err(Forbidden("Access denied"))
    else Ok(trips[id])
  }

  /** Reading one trip and listing apply the same scope: a caller can read
      exactly the trips its listing shows. */
  lemma ScopesAgree(trips: map<Id, Trip>, tourists: map<Id, Tourist>, caller: Identity, id: Id)
    requires TouristUsersUnique(tourists)
    ensures FindOneForUser(trips, tourists, id, caller).Ok? <==> id in IdsOf(FindAllForUser(trips, tourists, caller))
  {
  }

  /** A TOURIST without a profile sees no trip. */
  lemma NoProfileNoTrips(trips: map<Id, Trip>, tourists: map<Id, Tourist>, caller: Identity)
    requires TouristUsersUnique(tourists)
    requires caller.role == TOURIST && !HasTourist(tourists, caller.sub)
    ensures FindAllForUser(trips, tourists, caller) == []
  {
  }

  /** The two checks of `update`, in the order the service makes them. The
      date range is checked only when both dates are supplied. */
  function CheckUpdate(dto: UpdateTripDto): (e: Option<Error>)
  {
    if dto.status == Some(CANCELED) then Some(BadRequest("Use cancel endpoint"))
    else if dto.startDate.Some? && dto.endDate.Some? && dto.startDate.value >= dto.endDate.value then
      Some(BadRequest(InvalidRange))
    else None
  }

  /** The stored trip with the supplied fields written over it. */
  function Patch(trip: Trip, dto: UpdateTripDto): Trip
  {
    trip.(startDate := GetOr(dto.startDate, trip.startDate),
          endDate := GetOr(dto.endDate, trip.endDate),
          destination := GetOr(dto.destination, trip.destination),
          status := GetOr(dto.status, trip.status))
  }

  method Update(db: Database, id: Id, dto: UpdateTripDto) returns (r: Result<Trip>)
    requires db.Valid()
    modifies db
    ensures db.Valid()
    ensures id !in old(db.trips) ==> r == Err(NotFound("Trip not found"))
    ensures id in old(db.trips) && dto.status == Some(CANCELED) ==> r == Err(BadRequest("Use cancel endpoint"))
    ensures id in old(db.trips) && dto.status != Some(CANCELED)
            && dto.startDate.Some? && dto.endDate.Some? && dto.startDate.value >= dto.endDate.value
            ==> r == Err(BadRequest(InvalidRange))
    ensures r.Ok? <==> id in old(db.trips) && CheckUpdate(dto).None?
    ensures r.Err? ==> unchanged(db)
    ensures r.Ok? ==> r.value == Patch(old(db.trips)[id], dto) && db.trips == old(db.trips)[id := r.value]
    ensures r.Ok? && r.value.status == CANCELED ==> old(db.trips)[id].status == CANCELED
    ensures db.users == old(db.users) && db.employees == old(db.employees) && db.tourists == old(db.tourists)
  {
    if id !in db.trips {
      return Err(NotFound("Trip not found"));
    }
    var check := CheckUpdate(dto);
    if check.Some? {
      return Err(check.value);
    }
    var trip := Patch(db.trips[id], dto);
    db.trips := db.trips[id := trip];
    return Ok(trip);
  }

  /** Supplied fields are written, the others keep their stored values, and
      the owner, the cancellation time and the creation time never change. */
  lemma PatchKeepsUnsupplied(trip: Trip, dto: UpdateTripDto)
    ensures var t := Patch(trip, dto);
      && (dto.startDate.None? ==> t.startDate == trip.startDate) && (dto.startDate.Some? ==> t.startDate == dto.startDate.value)
      && (dto.endDate.None? ==> t.endDate == trip.endDate) && (dto.endDate.Some? ==> t.endDate == dto.endDate.value)
      && (dto.destination.None? ==> t.destination == trip.destination)
      && (dto.destination.Some? ==> t.destination == dto.destination.value)
      && (dto.status.None? ==> t.status == trip.status) && (dto.status.Some? ==> t.status == dto.status.value)
      && t.touristId == trip.touristId && t.canceledAt == trip.canceledAt && t.createdAt == trip.createdAt
  {
  }

  /** Applying the same update twice is the same as applying it once. */
  lemma PatchIdempotent(trip: Trip, dto: UpdateTripDto)
    ensures Patch(Patch(trip, dto), dto) == Patch(trip, dto)
  {
  }

  /** A single supplied date is not compared with the stored other date: an
      update that passes the checks can leave a trip ending before it starts. */
  lemma SingleDateSkipsRangeCheck(trip: Trip, newEnd: int)
    requires trip.startDate < trip.endDate && newEnd <= trip.startDate
    ensures var dto := UpdateTripDto(None, Some(newEnd), None, None);
      CheckUpdate(dto).None? && Patch(trip, dto).startDate >= Patch(trip, dto).endDate
  {
  }

  /** The general update may move a CANCELED trip back to PLANNED; its
      cancellation time stays. */
  lemma UpdateCanReplan(trip: Trip)
    requires trip.status == CANCELED
    ensures var dto := UpdateTripDto(None, None, None, Some(PLANNED));
      CheckUpdate(dto).None? && Patch(trip, dto).status == PLANNED && Patch(trip, dto).canceledAt == trip.canceledAt
  {
  }

  /** `cancel` ignores the current status: cancelling again succeeds and
      overwrites the cancellation time. */
  method Cancel(db: Database, id: Id, now: int) returns (r: Result<Trip>)
    requires db.Valid()
    modifies db
    ensures db.Valid()
    ensures r.Ok? <==> id in old(db.trips)
    ensures r.Err? ==> r.error == NotFound("Trip not found") && unchanged(db)
    ensures r.Ok? ==>
      && r.value == old(db.trips)[id].(status := CANCELED, canceledAt := Some(now))
      && db.trips == old(db.trips)[id := r.value]
    ensures db.users == old(db.users) && db.employees == old(db.employees) && db.tourists == old(db.tourists)
  {
    if id !in db.trips {
      return Err(NotFound("Trip not found"));
    }
    var trip := db.trips[id].(status := CANCELED, canceledAt := Some(now));
    db.trips := db.trips[id := trip];
    return Ok(trip);
  }

  method Remove(db: Database, id: Id) returns (r: Result<Reply<Trip>>)
    requires db.Valid()
    modifies db
    ensures db.Valid()
    ensures r.Ok? <==> id in old(db.trips)
    ensures r.Err? ==> r.error == NotFound("Trip not found") && unchanged(db)
    ensures r.Ok? ==>
      && r.value == Reply("Trip successfully deleted", old(db.trips)[id])
      && db.trips == old(db.trips) - {id}
    ensures db.users == old(db.users) && db.employees == old(db.employees) && db.tourists == old(db.tourists)
  {
    if id !in db.trips {
      return Err(NotFound("Trip not found"));
    }
    var deleted := db.trips[id];
    db.trips := db.trips - {id};
    return Ok(Reply("Trip successfully deleted", deleted));
  }
}

=== FILE: users_controller.dfy ===
/** The account routes: a per-handler `@Roles` list each. */
module UsersController {
  import opened Common
  import opened RolesGuard

  datatype Handler = CreateEmployee | CreateTourist | UpdateUser | UpdateCredentials | DeleteUser

  /** The `@Roles` list each handler declares. */
  function RolesOf(h: Handler): (roles: Option<seq<Role>>)
    ensures roles.Some? && TOURIST !in roles.value && ADMIN in roles.value
  {
    match h
    case CreateEmployee => Some([ADMIN])
    case CreateTourist => Some([ADMIN, EMPLOYEE])
    case UpdateUser => Some([ADMIN])
    case UpdateCredentials => Some([ADMIN])
    case DeleteUser => Some([ADMIN])
  }

  /** Every account handler but tourist creation is for ADMIN only. */
  lemma AdminOnly(h: Handler, caller: Identity)
    requires h != CreateTourist
    ensures CanActivate(RolesOf(h), caller) <==> caller.role == ADMIN
  {
  }

  /** ADMIN and EMPLOYEE callers may create tourist accounts. */
  lemma TouristAccountsByAdminOrEmployee(caller: Identity)
    ensures CanActivate(RolesOf(CreateTourist), caller) <==> caller.role == ADMIN || caller.role == EMPLOYEE
  {
  }

  /** No account handler admits TOURIST. */
  lemma TouristHasNoAccountHandler(h: Handler, caller: Identity)
    requires caller.role == TOURIST
    ensures !CanActivate(RolesOf(h), caller)
  {
  }
}

=== FILE: users_service.dfy ===
/** Account management: an account is created together with its employee or
    tourist profile and deleted together with it, in one transaction. */
module UsersService {
  import opened Common
  import opened Crypto
  import opened Store

  datatype CreateEmployeeDto = CreateEmployeeDto(email: string, password: string, name: string, position: string)

  datatype CreateTouristDto = CreateTouristDto(
    email: string,
    password: string,
    fullName: string,
    phone: string,
    gender: Gender,
    age: int,
    address: string)

  datatype UpdateCredentialsDto = UpdateCredentialsDto(email: Option<string>, password: Option<string>)

  /** What `createEmployee` echoes: no password, no hash. */
  datatype AccountSummary = AccountSummary(id: Id, name: string, email: string, role: Role)

  const EmailExists := "Email already exists"

  method CreateEmployee(db: Database, dto: CreateEmployeeDto, bcrypt: Bcrypt, salt: Salt, newUserId: Id, now: int)
    returns (r: Result<Reply<AccountSummary>>)
    requires db.Valid() && newUserId !in db.users
    modifies db
    ensures db.Valid()
    ensures r.Err? <==> EmailTaken(old(db.users), dto.email)
    ensures r.Err? ==> r.error == BadRequest(EmailExists) && unchanged(db)
    ensures r.Ok? ==>
      && r.value == Reply("Employee account created successfully",
                          AccountSummary(newUserId, dto.name, dto.email, EMPLOYEE))
      && db.users == old(db.users)[newUserId := User(dto.email, dto.name, bcrypt.hash(dto.password, salt), EMPLOYEE, now)]
      && db.employees == old(db.employees)[newUserId := Employee(dto.position)]
      && db.tourists == old(db.tourists) && db.trips == old(db.trips)
  {
    if EmailTaken(db.users, dto.email) {
      return Err(BadRequest(EmailExists));
    }
    var passwordHash := bcrypt.hash(dto.password, salt);
    // the transaction: the account, then its profile
    var user := User(dto.email, dto.name, passwordHash, EMPLOYEE, now);
    AddEmployeeAccount(db.users, db.employees, db.tourists, db.trips, newUserId, user, Employee(dto.position));
    db.users := db.users[newUserId := user];
    db.employees := db.employees[newUserId := Employee(dto.position)];
    return Ok(Reply("Employee account created successfully",
                    AccountSummary(newUserId, user.name, user.email, user.role)));
  }

  /** The reply echoes the request body as it came, password included. */
  method CreateTourist(db: Database, dto: CreateTouristDto, bcrypt: Bcrypt, salt: Salt,
                       newUserId: Id, newTouristId: Id, now: int)
    returns (r: Result<Reply<CreateTouristDto>>)
    requires db.Valid() && newUserId !in db.users && newTouristId !in db.tourists
    modifies db
    ensures db.Valid()
    ensures r.Err? <==> EmailTaken(old(db.users), dto.email)
    ensures r.Err? ==> r.error == BadRequest(EmailExists) && unchanged(db)
    ensures r.Ok? ==>
      && r.value == Reply("Tourist account created successfully", dto)
      && db.users == old(db.users)[newUserId := User(dto.email, dto.fullName, bcrypt.hash(dto.password, salt), TOURIST, now)]
      && db.tourists == old(db.tourists)[newTouristId := Tourist(newUserId, dto.phone, dto.gender, dto.age, dto.address)]
      && db.employees == old(db.employees) && db.trips == old(db.trips)
  {
    if EmailTaken(db.users, dto.email) {
      return Err(BadRequest(EmailExists));
    }
    var passwordHash := bcrypt.hash(dto.password, salt);
    var user := User(dto.email, dto.fullName, passwordHash, TOURIST, now);
    var profile := Tourist(newUserId, dto.phone, dto.gender, dto.age, dto.address);
    AddTouristAccount(db.users, db.employees, db.tourists, db.trips, newUserId, user, newTouristId, profile);
    // the transaction: the account, then its profile
    db.users := db.users[newUserId := user];
    db.tourists := db.tourists[newTouristId := profile];
    return Ok(Reply("Tourist account created successfully", dto));
  }

  /** `updateUser` writes its (unmodelled) payload over the account row;
      `patch` stands for that write. */
  method UpdateUser(db: Database, userId: Id, patch: User -> User) returns (r: Result<User>)
    modifies db
    ensures r.Ok? <==> userId in old(db.users)
    ensures r.Err? ==> r.error == NotFound("User not found") && unchanged(db)
    ensures r.Ok? ==>
      && r.value == patch(old(db.users)[userId])
      && db.users == old(db.users)[userId := r.value]
    ensures db.employees == old(db.employees) && db.tourists == old(db.tourists) && db.trips == old(db.trips)
  {
    if userId !in db.users {
      return Err(NotFound("User not found"));
    }
    var user := patch(db.users[userId]);
    db.users := db.users[userId := user];
    return Ok(user);
  }

  /** A field is supplied when it is present and not the empty string (the
      source tests it for truthiness). */
  predicate Supplied(field: Option<string>)
  {
    field.Some? && field.value != ""
  }

  /** The email changes only when a different one is supplied. */
  predicate NewEmail(dto: UpdateCredentialsDto, user: User)
  {
    Supplied(dto.email) && dto.email.value != user.email
  }

  /** The `data` object `updateUserCredentials` writes. */
  datatype CredentialsPatch = CredentialsPatch(email: Option<string>, passwordHash: Option<Digest>)

  const NoChanges := "No changes provided"
  const CredentialsUpdated := "User credentials updated successfully"

  method UpdateUserCredentials(db: Database, userId: Id, dto: UpdateCredentialsDto, bcrypt: Bcrypt, salt: Salt)
    returns (r: Result<Message>)
    requires db.Valid()
    modifies db
    ensures db.Valid()
    ensures userId !in old(db.users) ==> r == Err(NotFound("User not found"))
    ensures userId in old(db.users) && NewEmail(dto, old(db.users)[userId]) && EmailTaken(old(db.users), dto.email.value)
            ==> r == Err(BadRequest("Email already in use"))
    ensures r.Ok? <==> userId in old(db.users)
                       && !(NewEmail(dto, old(db.users)[userId]) && EmailTaken(old(db.users), dto.email.value))
    ensures r.Err? ==> unchanged(db)
    ensures r == Ok(Message(NoChanges)) <==>
      userId in old(db.users) && !NewEmail(dto, old(db.users)[userId]) && !Supplied(dto.password)
    ensures r == Ok(Message(NoChanges)) ==> unchanged(db)
    ensures r.Ok? && r != Ok(Message(NoChanges)) ==>
      && r == Ok(Message(CredentialsUpdated))
      && var user := old(db.users)[userId];
         db.users == old(db.users)[userId := user.(
           email := if NewEmail(dto, user) then dto.email.value else user.email,
           passwordHash := if Supplied(dto.password) then bcrypt.hash(dto.password.value, salt) else user.passwordHash)]
    ensures db.employees == old(db.employees) && db.tourists == old(db.tourists) && db.trips == old(db.trips)
  {
    if userId !in db.users {
      return Err(NotFound("User not found"));
    }
    var user := db.users[userId];
    var data := CredentialsPatch(None, None);
    if Supplied(dto.email) && dto.email.value != user.email {
      if EmailTaken(db.users, dto.email.value) {
        return Err(BadRequest("Email already in use"));
      }
      data := data.(email := Some(dto.email.value));
    }
    if Supplied(dto.password) {
      data := data.(passwordHash := Some(bcrypt.hash(dto.password.value, salt)));
    }
    if data == CredentialsPatch(None, None) {
      return Ok(Message(NoChanges));
    }
    ChangeCredentials(db.users, db.employees, db.tourists, db.trips, userId,
                      GetOr(data.email, user.email), GetOr(data.passwordHash, user.passwordHash));
    db.users := db.users[userId := user.(email := GetOr(data.email, user.email),
                                         passwordHash := GetOr(data.passwordHash, user.passwordHash))];
    return Ok(Message(CredentialsUpdated));
  }

  /** Deletes whichever profiles the account has, then the account, in one
      transaction. Deleting a tourist profile either fails on the trips that
      still point at it (`Restrict`, and the transaction rolls back) or takes
      them with it (`Cascade`); the trips of every other profile stay. */
  method DeleteUser(db: Database, userId: Id, onDelete: OnDelete) returns (r: Result<Message>)
    requires db.Valid()
    modifies db
    ensures db.Valid()
    ensures r.Ok? <==> userId in old(db.users) && (onDelete == Cascade || !HasTripsOf(old(db.trips), old(db.tourists), userId))
    ensures userId !in old(db.users) ==> r == Err(NotFound("User not found"))
    ensures userId in old(db.users) && onDelete == Restrict && HasTripsOf(old(db.trips), old(db.tourists), userId)
            ==> r == Err(ForeignKeyFailure)
    ensures r.Err? ==> unchanged(db)
    ensures r.Ok? ==>
      && r.value == Message("User deleted successfully")
      && db.users == old(db.users) - {userId}
      && db.employees == old(db.employees) - {userId}
      && db.tourists == WithoutTouristOf(old(db.tourists), userId)
      && db.trips == WithoutTripsOf(old(db.trips), old(db.tourists), userId)
  {
    if userId !in db.users {
      return Err(NotFound("User not found"));
    }
    if onDelete == Restrict && HasTripsOf(db.trips, db.tourists, userId) {
      // the profile delete fails and the transaction rolls back
      return Err(ForeignKeyFailure);
    }
    RemoveAccount(db.users, db.employees, db.tourists, db.trips, userId);
    AbsentProfiles(db.employees, db.tourists, db.trips, userId);
    // the transaction: the profiles the account has, then the account
    var employees, tourists, trips := db.employees, db.tourists, db.trips;
    if userId in employees {
      employees := employees - {userId};
    }
    if HasTourist(tourists, userId) {
      tourists, trips := WithoutTouristOf(tourists, userId), WithoutTripsOf(trips, tourists, userId);
    }
    db.employees, db.tourists, db.trips, db.users := employees, tourists, trips, db.users - {userId};
    return Ok(Message("User deleted successfully"));
  }
}
